=== FILE: README.md ===
# Portfolio page script — a Dafny model of its sequential logic

The portfolio site's page script (`assets/js/script.js`) is a set of browser
event handlers. Most of them only change styles. A few hold real sequential
logic, and this project models those as pure Dafny functions and one method:

- **Key-sequence detector** (`KeySequence`): every keydown pushes the key's
  name and keeps a trailing window of ten (`slice(-10)`). The easter egg fires
  when the window, joined with no separator, equals the joined ten-key target
  sequence.
- **Cursor trail** (`CursorTrail`): every mousemove appends a point. When the
  trail then holds more than twenty points, one shift drops the oldest.
- **Quotes loader** (`QuoteLoader`, with `QuoteJson` and `NumberText`): a quote
  list is cached in local storage under two keys, the serialized list and the
  fetch time as decimal text. A load uses the cache when both entries are
  present and less than one hour old. Otherwise it fetches. A successful fetch
  overwrites both entries and returns the data. Any failure returns a built-in
  one-quote fallback and leaves storage alone. A random draw then picks the
  quote to show.
- **Small handlers**: the nav bar's `scrolled` class (`NavScroll`), the mobile
  menu's toggle and close (`Menu`), the active-link highlight on scroll
  (`ActiveSection`) and the typewriter effect on the hero title (`Typewriter`).

The browser's inputs are explicit parameters:

- local storage is a `map<string, string>`;
- the clock is an integer;
- the network response is a `FetchOutcome` value;
- `Math.random()` is a real draw in [0, 1);
- element lookups and attribute values are plain booleans, strings and records.

`NavScroll.Nav` keeps the `lastScroll` value the scroll handler writes, although nothing reads it.
`Window` holds the sliding-window helper shared by the key buffer and the trail.
`Options` holds the optional-value type.

Two behaviours of the code are easy to miss, and the model keeps both:

- Fetch failures are always recovered, but a load can still fail. If
  `JSON.parse` rejects the cached list, it throws inside `loadQuotes`. The
  load is then abandoned: nothing is shown, and neither memory nor storage
  changes. This is `LoadResult.ParseFailure`.
- The stored timestamp is not the load's start time. The code reads the clock
  a second time after the response arrives, and it stores that second reading.
  `LoadQuotes` therefore takes two clock readings, `now` and `clock`.

## Model

| member | source | states |
|---|---|---|
| Window.Last | assets/js/script.js:152 | `slice(-n)` yields exactly the last min(len, n) elements, in their original order |
| Window.LastOfAppend | assets/js/script.js:151-152 | trimming the window after every push gives the same window as trimming once at the end |
| Window.LastOfSnoc | assets/js/script.js:151-152 | pushing onto a window of n keeps the last n-1 old elements, then the new one |
| KeySequence.OnKeyDown | assets/js/script.js:150-154 | after a keydown the buffer holds at most 10 names: the previous buffer's last 9, then the new key; the effect fires iff the joined buffer equals the joined target |
| KeySequence.ReplayIsTrailingWindow | assets/js/script.js:143-152 | after any sequence of keydowns from the empty buffer, the buffer is exactly the last min(n, 10) keys pressed, in order |
| KeySequence.ElementwiseMatchFires | assets/js/script.js:144-154 | if the ten most recent keys equal ArrowUp ArrowUp ArrowDown ArrowDown ArrowLeft ArrowRight ArrowLeft ArrowRight b a, the last keydown fires |
| KeySequence.JoinMatchWithoutElementwiseMatch | assets/js/script.js:154 | the `join('')` comparison is strictly weaker than element-wise equality: a one-entry buffer holding the whole joined name fires |
| CursorTrail.OnMouseMove | assets/js/script.js:134-140 | the new point is last; below the cap nothing is dropped; at the cap exactly the oldest point is dropped; a trail of at most 20 stays at most 20 |
| CursorTrail.MouseMoveKeepsTrailingWindow | assets/js/script.js:135-139 | on a bounded trail, one push plus at most one shift equals keeping the last 20 points |
| CursorTrail.ReplayIsTrailingWindow | assets/js/script.js:131-140 | after any sequence of mousemoves from the empty trail, the trail is bounded and is exactly the last min(n, 20) points |
| NavScroll.OnScroll | assets/js/script.js:5-15 | the `scrolled` class is on iff the offset is strictly above 50, and the offset is remembered |
| NavScroll.ScrolledIgnoresHistory | assets/js/script.js:8-12 | the class depends only on the current offset, not on the previous state |
| NavScroll.ScrolledIsMonotone | assets/js/script.js:8-12 | scrolling further down never removes the class |
| NavScroll.ThresholdIsStrict | assets/js/script.js:8 | an offset of exactly 50 is not scrolled; 50.5 is |
| Menu.BoolText | assets/js/script.js:24 | a boolean attribute value is the text "true" exactly when it is true, "false" exactly when false |
| Menu.Toggle | assets/js/script.js:21-25 | a toggle click flips both `active` classes, and `aria-expanded` reads "true" iff the menu is now open |
| Menu.CloseFromLink | assets/js/script.js:30-34 | a link click leaves both classes off and `aria-expanded` "false", from any state |
| Menu.ToggleKeepsConsistent | assets/js/script.js:22-24 | if menu class, button class and attribute agree, they still agree after a toggle |
| Menu.CloseIsConsistent | assets/js/script.js:31-33 | after a link click, menu, button and attribute agree |
| Menu.ToggleTwiceRestores | assets/js/script.js:22-24 | two toggles restore both classes, and the attribute then describes the menu |
| Menu.CloseIsIdempotent | assets/js/script.js:31-33 | closing twice equals closing once |
| ActiveSection.LinkFor | assets/js/script.js:83 | the lookup finds the first link whose href is `#id`, and finds none only when no link has it |
| ActiveSection.UpdateActiveNavLink | assets/js/script.js:76-90 | hrefs never change; if no section's band (offsetTop-100, offsetTop-100+height] holds the offset, the links are unchanged; otherwise the last such section decides and its link, if any, is the only active one |
| Typewriter.Step | assets/js/script.js:117-123 | a tick reschedules iff characters remain; it advances by exactly one character and keeps the shown text a prefix of the text; otherwise it changes nothing |
| Typewriter.RunShowsPrefix | assets/js/script.js:112-123 | after k ticks from the cleared title, the title shows `text[..min(k, len)]` |
| Typewriter.RunStopsAtEnd | assets/js/script.js:117-122 | every tick before the end reschedules; after len ticks the whole text is shown and the next tick schedules nothing |
| NumberText.NatToText | assets/js/script.js:197 | a clock reading is written as non-empty decimal digits whose value is the reading, with no leading zero; 0 is written "0" |
| NumberText.ParseIntWithoutDigitsIsNaN | assets/js/script.js:217 | `parseInt` of any text that contains no decimal digit at all is not-a-number |
| NumberText.ParseIntReadsLeadingDecimal | assets/js/script.js:217 | for any leading white space, an optional `+` or `-`, a non-empty run of decimal digits and any tail that does not continue the run (nor turn a lone `0` into a `0x` prefix), `parseInt` is the run's value, negated after `-` |
| NumberText.ParseIntSkipsSpaceAndStopsAtNonDigit | assets/js/script.js:217 | `parseInt(" 42ms")` is 42: leading white space is skipped and reading stops at the first non-digit |
| NumberText.ParseIntReadsSignedHex | assets/js/script.js:217 | for any leading white space, an optional sign, a `0x` or `0X` prefix, a non-empty run of hexadecimal digits and a tail that does not continue it, `parseInt` is the run's hexadecimal value, negated after `-`: the sign is read before the prefix |
| NumberText.ParseIntOfBareHexPrefix | assets/js/script.js:217 | `parseInt("0x")` is not-a-number: a prefix with no hexadecimal digit after it reads nothing, so such a stored time never counts as fresh |
| NumberText.ParseIntOfLeadingLetter | assets/js/script.js:217 | `parseInt("ms42")` is not-a-number: digits after a leading letter are never reached |
| NumberText.ParseIntOfNatToText | assets/js/script.js:197-217 | reading back a stored timestamp with `parseInt` gives the same number |
| QuoteJson.Encode | assets/js/script.js:196 | the stored text of a quote list starts with `[` and ends with `]`, and it is `[]` exactly when the list is empty |
| QuoteJson.Decode | assets/js/script.js:218 | only text starting with `[` reads back as a list, and it reads back as the empty list exactly when it is `[]` |
| QuoteJson.DecodeOfEncode | assets/js/script.js:196-218 | `JSON.parse` of the stored `JSON.stringify` text gives back the same quote list |
| QuoteLoader.FetchQuotes | assets/js/script.js:186-208 | on success the data is returned, and both entries are overwritten so that they read back as the data and the clock, with other keys untouched; on a network error, a non-ok status or an unreadable body, the one-quote fallback is returned and storage is unchanged |
| QuoteLoader.LoadQuotes | assets/js/script.js:211-222 | it fetches iff the cache is not fresh, meaning both entries present and non-empty and now - stamp < 3600000 strictly; a fresh cache is served as stored, without a fetch; a fresh but unparsable cache ends the load |
| QuoteLoader.PickIndex | assets/js/script.js:233 | `floor(draw * n)` with draw in [0, 1) is a valid index, and index i is chosen exactly for draws with i <= draw * n < i + 1 |
| QuoteLoader.EveryIndexSelectable | assets/js/script.js:233 | every index of a non-empty list is chosen by some draw in [0, 1) |
| QuoteLoader.DisplayRandomQuote | assets/js/script.js:229-253 | nothing is shown for an empty list or missing slots; otherwise the drawn entry is shown as `"q"` and the dash-prefixed author |
| QuoteLoader.OnContentLoaded | assets/js/script.js:211-226 | whatever is shown is an entry of the loaded list; a stale cache with a failed fetch leaves memory holding only the fallback, and storage unchanged |
| QuoteLoader.FetchThenLoadWithinHour | assets/js/script.js:194-222 | after a successful fetch, a load less than an hour later uses the cache and gets exactly the fetched list, whatever the network does |
| QuoteLoader.LoadWithinHourUsesCache | assets/js/script.js:217-218 | a list stored less than an hour before the load is served from storage without a fetch |
| QuoteLoader.LoadAfterHourFetches | assets/js/script.js:217-221 | a load an hour or more after the stored time fetches |
| QuoteLoader.CacheExpiresBetween59And61Minutes | assets/js/script.js:217-221 | a load 59 minutes after the stored time uses the cache; a load 61 minutes after it fetches |
| QuoteLoader.SecondFetchReplacesFirst | assets/js/script.js:195-197 | two successful fetches in a row leave exactly what the second alone would leave, with nothing merged |
| QuoteLoader.FailedFetchShowsFallback | assets/js/script.js:200-207 | with a stale cache and a failed fetch, the page shows the Steve Jobs fallback quote for any draw, and storage is untouched |
| QuoteLoader.CachedListShown | assets/js/script.js:217-233 | a list stored less than an hour before the load is served without a fetch, and the page shows the quote the draw picks from that list |
| QuoteLoader.FreshCacheShownWithoutFetch | assets/js/script.js:217-246 | a one-quote cache written ten minutes earlier is shown as `"A"` with author `X`, without a fetch |
| QuoteLoader.EmptyCacheFilledByFetch | assets/js/script.js:195-199 | with no cache, a successful one-quote fetch leaves storage holding exactly that list and the fetch time |

## Left out

- DOM queries, class-list and style mutation, and listener registration. The model keeps only the state they change, as booleans and strings.
- All `setTimeout` scheduling: the 80 ms and 800 ms typing delays, the 300 ms quote fade, the staggered card reveal and the 5 s animation reset. These are browser timing. `Typewriter.Step` reports only whether it schedules another tick.
- The opacity fade around the quote swap. Only the final slot text is modelled.
- The IntersectionObserver reveal, the smooth-scroll anchors, the parallax transform, the reduced-motion override and the injected keyframes. They are browser APIs, floating-point style math or pure side effects, with no decision logic.
- `console.error` on a failed fetch. It is logging only.
- Any deduplication of concurrent loads. The page triggers one load per page view.
- JavaScript numbers are IEEE doubles. The model uses `int` clock values and `real` offsets and draws. Rounding of very large `parseInt` results, and of `draw * n`, is not modelled.
- Strings are sequences of Unicode scalar values. Lone UTF-16 surrogates are not representable. The typewriter steps one code point at a time, whereas `charAt` steps one UTF-16 code unit.
- The author prefix at line 246 is three mis-decoded characters plus a space. It is kept as an opaque constant, `QuoteLoader.AuthorPrefix`.
- QuoteJson.Decode: accepts only the compact `[{"q":…,"a":…},…]` form that the serializer writes. It has no white space between tokens, and the fields are exactly `q` then `a`. Other JSON that `JSON.parse` would accept counts as a parse failure, which ends the load. In the model the stored text is always what `Encode` writes, because a quote is only its `q` and `a` (see the `QuoteJson.Quote` line below). In the source, line 196 stores the response re-serialized by `JSON.stringify`, with its extra fields and key order, for example `[{"a":"X","q":"A"}]`. `JSON.parse` reads that back and the page shows the quote, where the model would end the load.
- QuoteJson.Decode: a cached value that is valid JSON but not a list of quote records does not end the load in the source. A list of non-records such as `[1]` or `[{}]`, or a string such as `"abc"`, is served from the cache, and the slots show the text `undefined` for the missing fields (lines 233-246). `null` throws at line 230. A number, a plain object or a `null` entry throws when the slot text is set at line 245. The model treats all of these as a parse failure.
- QuoteJson.Quote: has only `q` and `a`. Any other fields the service returns are not modelled. They are stored and read back unchanged, and nothing reads them.
- A `localStorage.setItem` that throws, for example when storage is full. In the source the catch then returns the fallback, even though one entry may already have been written. The model's storage always accepts writes.
- A response body that is not a list of quote records. The model's `FetchOutcome` body is always a quote list, or unreadable.
- ActiveSection.LinkFor: compares each href with `#` and the id as plain text. The source builds a CSS attribute selector from the id instead (line 83), and CSS escapes in it are decoded. An id such as `a\62 ` therefore matches a different href, `#ab`. An id containing a line break (line feed, carriage return or form feed) makes the selector invalid, so the query throws. An id containing `"` usually does the same, but a crafted one such as `x"],[href="#y` turns the selector into a list, `.nav-link[href="#x"],[href="#y"]`, which matches other elements, and line 87 then activates the first of them. The model covers ids without `\`, `"` or line breaks, where the two agree.

=== FILE: active_section.dfy ===
/** Active-link highlighting: on every scroll, each section whose band
    contains the scroll offset makes its own navigation link the only
    active one; sections are visited in document order. */
module ActiveSection {
  import opened Options

  /** How far above a section's top its band starts, in pixels. */
  const BandOffset: int := 100

  /** A `section[id]` element: its id, `offsetTop` and `offsetHeight`. */
  datatype Section = Section(id: string, offsetTop: int, offsetHeight: int)

  /** A `.nav-link` element: its `href` attribute and its `active` class. */
  datatype NavLink = NavLink(href: string, active: bool)

  /** The band test: the offset lies in the half-open interval
      `(offsetTop - 100, offsetTop - 100 + offsetHeight]`. */
  predicate InSection(scrollY: real, s: Section)
  {
    var top := s.offsetTop - BandOffset;
    top as real < scrollY && scrollY <= (top + s.offsetHeight) as real
  }

  /** The link whose `href` is `#id`, as the document query finds it: the
      first such link in document order, if any. */
  function LinkFor(links: seq<NavLink>, id: string): (r: Option<nat>)
    ensures r.Some? ==> r.value < |links| && links[r.value].href == "#" + id
    ensures r.Some? ==> forall i :: 0 <= i < r.value ==> links[i].href != "#" + id
    ensures r.None? ==> forall i :: 0 <= i < |links| ==> links[i].href != "#" + id
  {
    if |links| == 0 then None
    else if links[0].href == "#" + id then Some(0)
    else match LinkFor(links[1..], id)
      case None => None
      case Some(i) => Some(i + 1)
  }

  /** Exactly the link at `target` is active, or none is when there is no target. */
  predicate OnlyActive(links: seq<NavLink>, target: Option<nat>)
  {
    forall i :: 0 <= i < |links| ==> (links[i].active <==> target == Some(i))
  }

  /** Every link loses `active`, then the link at `target` (if any) gains it. */
  function Activate(links: seq<NavLink>, target: Option<nat>): (r: seq<NavLink>)
    requires target.Some? ==> target.value < |links|
    ensures |r| == |links|
    ensures forall i :: 0 <= i < |r| ==> r[i].href == links[i].href
    ensures OnlyActive(r, target)
  {
    var cleared := seq(|links|, i requires 0 <= i < |links| => NavLink(links[i].href, false));
    if target.Some? then cleared[target.value := NavLink(cleared[target.value].href, true)] else cleared
  }

  /** Section `j` contains the offset and no later section among the first `k` does. */
  predicate LastContaining(scrollY: real, sections: seq<Section>, j: int, k: int)
    requires 0 <= k <= |sections|
  {
    0 <= j < k && InSection(scrollY, sections[j])
    && forall m :: j < m < k ==> !InSection(scrollY, sections[m])
  }

  /** One pass of the scroll handler over all sections. When no band
      contains the offset the links are left as they were; otherwise the
      last containing section in document order decides, and its link (if
      it has one) is the only active link afterwards. */
  method UpdateActiveNavLink(scrollY: real, sections: seq<Section>, links: seq<NavLink>)
    returns (r: seq<NavLink>)
    ensures |r| == |links|
    ensures forall i :: 0 <= i < |r| ==> r[i].href == links[i].href
    ensures (forall m :: 0 <= m < |sections| ==> !InSection(scrollY, sections[m])) ==> r == links
    ensures forall j :: LastContaining(scrollY, sections, j, |sections|) ==>
              OnlyActive(r, LinkFor(links, sections[j].id))
  {
    r := links;
    var k := 0;
    while k < |sections|
      invariant 0 <= k <= |sections|
      invariant |r| == |links|
      invariant forall i :: 0 <= i < |r| ==> r[i].href == links[i].href
      invariant (forall m :: 0 <= m < k ==> !InSection(scrollY, sections[m])) ==> r == links
      invariant forall j :: LastContaining(scrollY, sections, j, k) ==>
                  OnlyActive(r, LinkFor(links, sections[j].id))
    {
      if InSection(scrollY, sections[k]) {
        r := Activate(r, LinkFor(links, sections[k].id));
        forall j | LastContaining(scrollY, sections, j, k + 1)
          ensures OnlyActive(r, LinkFor(links, sections[j].id))
        {
          assert j == k;
        }
        assert LastContaining(scrollY, sections, k, k + 1);
      } else {
        forall j | LastContaining(scrollY, sections, j, k + 1)
          ensures LastContaining(scrollY, sections, j, k)
        {
        }
      }
      k := k + 1;
    }
  }
}

=== FILE: cursor_trail.dfy ===
/** The cursor trail: a first-in first-out buffer of pointer positions,
    capped at twenty entries, appended to on every mousemove. */
module CursorTrail {
  import opened Window

  /** Maximum number of points kept. */
  const TrailLength: nat := 20

  /** One mousemove sample: client coordinates and the clock reading taken
      when the event was handled. */
  datatype Point = Point(x: real, y: real, time: int)

  /** The bound the handler maintains between events. */
  predicate Bounded(trail: seq<Point>)
  {
    |trail| <= TrailLength
  }

  /** One mousemove: push the new point, then shift once if the cap is exceeded. */
  function OnMouseMove(trail: seq<Point>, p: Point): (r: seq<Point>)
    ensures Bounded(trail) ==> Bounded(r)
    ensures |r| > 0 && r[|r| - 1] == p
    ensures |trail| < TrailLength ==> r[..|r| - 1] == trail
    ensures |trail| >= TrailLength ==> |r| == |trail| && r[..|r| - 1] == trail[1..]
  {
    var pushed := trail + [p];
    assert pushed[..|trail|] == trail;
    if |pushed| > TrailLength then
      assert pushed[1..][..|trail| - 1] == trail[1..];
      pushed[1..]
    else
      pushed
  }

  /** The trail after the points `moves` were sampled, in order, from an empty trail. */
  function Replay(moves: seq<Point>): seq<Point>
  {
    if |moves| == 0 then [] else OnMouseMove(Replay(moves[..|moves| - 1]), moves[|moves| - 1])
  }

  /** While the bound holds, one shift is the same as keeping the trailing
      window of twenty. */
  lemma MouseMoveKeepsTrailingWindow(trail: seq<Point>, p: Point)
    requires Bounded(trail)
    ensures OnMouseMove(trail, p) == Last(trail + [p], TrailLength)
  {
  }

  /** After any number of mousemoves the trail holds exactly the last
      `min(n, 20)` points, oldest first and newest last. */
  lemma {:induction false} ReplayIsTrailingWindow(moves: seq<Point>)
    ensures Bounded(Replay(moves))
    ensures Replay(moves) == moves[|moves| - Min(|moves|, TrailLength)..]
  {
    if |moves| > 0 {
      var prefix := moves[..|moves| - 1];
      var p := moves[|moves| - 1];
      ReplayIsTrailingWindow(prefix);
      assert Replay(prefix) == Last(prefix, TrailLength);
      MouseMoveKeepsTrailingWindow(Replay(prefix), p);
      LastOfAppend(prefix, p, TrailLength);
      SplitLast(moves);
    }
  }
}

=== FILE: key_sequence.dfy ===
/** The easter-egg key-sequence detector: a buffer of the most recent key
    names, trimmed to a trailing window of ten after every keydown, that
    fires when its concatenation spells the fixed ten-key sequence. */
module KeySequence {
  import opened Window

  /** Length of the trailing window kept after each keydown. */
  const WindowSize: nat := 10

  /** The target sequence, one key name per press. */
  const Target: seq<string> := [
    "ArrowUp", "ArrowUp", "ArrowDown", "ArrowDown",
    "ArrowLeft", "ArrowRight", "ArrowLeft", "ArrowRight",
    "b", "a"
  ]

  /** `keys.join('')`: the key names concatenated with no separator. */
  function Join(keys: seq<string>): string
  {
    if |keys| == 0 then "" else Join(keys[..|keys| - 1]) + keys[|keys| - 1]
  }

  /** The comparison the handler makes: string equality of the joined
      buffer with the joined target, not element-wise equality. */
  predicate Fires(buffer: seq<string>)
  {
    Join(buffer) == Join(Target)
  }

  datatype KeyDown = KeyDown(buffer: seq<string>, fired: bool)

  /** One keydown: push the key, keep the trailing window, test it. */
  function OnKeyDown(buffer: seq<string>, key: string): (r: KeyDown)
    ensures |r.buffer| <= WindowSize
    ensures r.buffer == Last(buffer, WindowSize - 1) + [key]
    ensures r.fired <==> Fires(r.buffer)
  {
    var b := Last(buffer + [key], WindowSize);
    LastOfSnoc(buffer, key, WindowSize);
    KeyDown(b, Fires(b))
  }

  /** The buffer after the keys `keys` were pressed, in order, on a fresh page. */
  function Replay(keys: seq<string>): seq<string>
  {
    if |keys| == 0 then [] else OnKeyDown(Replay(keys[..|keys| - 1]), keys[|keys| - 1]).buffer
  }

  /** After any number of keydowns the buffer is exactly the last
      `min(n, 10)` keys pressed, in the order they were pressed. */
  lemma {:induction false} ReplayIsTrailingWindow(keys: seq<string>)
    ensures Replay(keys) == Last(keys, WindowSize)
  {
    if |keys| > 0 {
      var prefix := keys[..|keys| - 1];
      var key := keys[|keys| - 1];
      ReplayIsTrailingWindow(prefix);
      assert Replay(prefix) == Last(prefix, WindowSize);
      LastOfLast(prefix, WindowSize, WindowSize - 1);
      assert Replay(keys) == Last(prefix, WindowSize - 1) + [key];
      LastOfSnoc(prefix, key, WindowSize);
      SplitLast(keys);
    }
  }

  /** The ten most recent presses being the target, key for key, makes the
      last keydown fire. */
  lemma ElementwiseMatchFires(keys: seq<string>)
    requires |keys| >= WindowSize
    requires keys[|keys| - WindowSize..] == Target
    ensures OnKeyDown(Replay(keys[..|keys| - 1]), keys[|keys| - 1]).fired
  {
    LastKeyDownWindow(keys);
    TargetFires();
  }

  lemma TargetFires()
    ensures Fires(Target)
  {
  }

  /** After at least ten keys, the last keydown leaves exactly the ten most recent. */
  lemma LastKeyDownWindow(keys: seq<string>)
    requires |keys| >= WindowSize
    ensures OnKeyDown(Replay(keys[..|keys| - 1]), keys[|keys| - 1]).buffer == keys[|keys| - WindowSize..]
  {
    ReplayIsTrailingWindow(keys);
    LastIsSuffix(keys, WindowSize);
  }

  /** The join comparison is strictly weaker than element-wise matching:
      a one-entry buffer whose single name is the whole joined target
      fires although it is not the target. */
  lemma JoinMatchWithoutElementwiseMatch()
    ensures Fires([Join(Target)])
    ensures [Join(Target)] != Target
  {
    assert Join([Join(Target)]) == Join([]) + Join(Target);
  }
}

=== FILE: menu.dfy ===
/** The mobile menu: a toggle button that opens and closes the menu and
    keeps its `aria-expanded` attribute in step, and navigation links that
    always close it. */
module Menu {

  /** The attribute text `setAttribute` stores for a boolean. */
  function BoolText(b: bool): (s: string)
    ensures s == "true" <==> b
    ensures s == "false" <==> !b
  {
    if b then "true" else "false"
  }

  /** The `active` class on the menu, the `active` class on the toggle
      button, and the toggle button's `aria-expanded` attribute text. */
  datatype MenuState = MenuState(menuActive: bool, toggleActive: bool, ariaExpanded: string)

  /** The menu, the button and the attribute agree. */
  predicate Consistent(m: MenuState)
  {
    m.menuActive == m.toggleActive && m.ariaExpanded == BoolText(m.menuActive)
  }

  /** A click on the toggle button: both classes flip independently, and the
      attribute records the menu's new state. */
  function Toggle(m: MenuState): (r: MenuState)
    ensures r.menuActive == !m.menuActive
    ensures r.toggleActive == !m.toggleActive
    ensures r.ariaExpanded == "true" <==> r.menuActive
    ensures r.ariaExpanded == "false" <==> !r.menuActive
  {
    var isActive := !m.menuActive;
    MenuState(isActive, !m.toggleActive, BoolText(isActive))
  }

  /** A click on any navigation link: the menu is closed whatever its state. */
  function CloseFromLink(m: MenuState): (r: MenuState)
    ensures !r.menuActive && !r.toggleActive
    ensures r.ariaExpanded == "false"
  {
    MenuState(false, false, BoolText(false))
  }

  /** Toggling keeps the menu, the button and the attribute in agreement. */
  lemma ToggleKeepsConsistent(m: MenuState)
    requires Consistent(m)
    ensures Consistent(Toggle(m))
  {
  }

  /** A link click leaves the three in agreement, from any state. */
  lemma CloseIsConsistent(m: MenuState)
    ensures Consistent(CloseFromLink(m))
  {
  }

  /** Two toggle clicks restore both classes; the attribute then again
      describes the menu. */
  lemma ToggleTwiceRestores(m: MenuState)
    ensures Toggle(Toggle(m)).menuActive == m.menuActive
    ensures Toggle(Toggle(m)).toggleActive == m.toggleActive
    ensures Toggle(Toggle(m)).ariaExpanded == BoolText(m.menuActive)
  {
  }

  /** Closing twice is the same as closing once. */
  lemma CloseIsIdempotent(m: MenuState)
    ensures CloseFromLink(CloseFromLink(m)) == CloseFromLink(m)
  {
  }
}

=== FILE: nav_scroll.dfy ===
/** The navigation bar's scroll handler: the `scrolled` class tracks whether
    the page is scrolled past a fixed threshold. */
module NavScroll {

  /** Scroll offset, in pixels, beyond which the bar is styled as scrolled. */
  const ScrollThreshold: real := 50.0

  /** What the handler touches: the bar's `scrolled` class and the
      remembered offset of the last scroll event. */
  datatype Nav = Nav(scrolled: bool, lastScroll: real)

  /** One scroll event at vertical offset `offset`. */
  function OnScroll(nav: Nav, offset: real): (r: Nav)
    ensures r.scrolled <==> offset > ScrollThreshold
    ensures r.lastScroll == offset
  {
    Nav(offset > ScrollThreshold, offset)
  }

  /** The class depends only on the current offset, not on the bar's
      previous state or on earlier scroll events. */
  lemma ScrolledIgnoresHistory(a: Nav, b: Nav, offset: real)
    ensures OnScroll(a, offset) == OnScroll(b, offset)
  {
  }

  /** Scrolling further down never removes the class. */
  lemma ScrolledIsMonotone(nav: Nav, lower: real, higher: real)
    requires lower <= higher
    ensures OnScroll(nav, lower).scrolled ==> OnScroll(nav, higher).scrolled
  {
  }

  /** The threshold itself is not past it: exactly 50 pixels is unscrolled. */
  lemma ThresholdIsStrict(nav: Nav)
    ensures !OnScroll(nav, ScrollThreshold).scrolled
    ensures OnScroll(nav, 50.5).scrolled
  {
  }
}

=== FILE: number_text.dfy ===
/** The number-to-text conversions used for the cache timestamp:
    `Number.prototype.toString()` for a non-negative integer clock reading,
    and the global `parseInt` with no radix, whose not-a-number result is
    `None`. */
module NumberText {
  import opened Options

  /** A digit of base 10 (`radix == 10`) or base 16 (`radix == 16`, either case). */
  predicate IsDigit(c: char, radix: nat)
  {
    '0' <= c <= '9' || (radix == 16 && ('a' <= c <= 'f' || 'A' <= c <= 'F'))
  }

  function DigitValue(c: char): (v: nat)
    ensures IsDigit(c, 10) ==> v < 10
    ensures IsDigit(c, 16) ==> v < 16
  {
    if IsDigit(c, 10) then (c - '0') as nat
    else if 'a' <= c <= 'f' then (c - 'a') as nat + 10
    else if 'A' <= c <= 'F' then (c - 'A') as nat + 10
    else 0
  }

  function DigitChar(d: nat): (c: char)
    requires d < 10
    ensures IsDigit(c, 10) && DigitValue(c) == d
  {
    '0' + d as char
  }

  /** The value of a digit string, most significant digit first. */
  function DigitsValue(ds: string, radix: nat): nat
  {
    if |ds| == 0 then 0
    else DigitsValue(ds[..|ds| - 1], radix) * radix + DigitValue(ds[|ds| - 1])
  }

  /** The shortest decimal form of `n`, with no leading zero: `n.toString()`
      for every `n` below 10^21, which covers every `Date.now()` reading
      (from 10^21 on, `toString` switches to exponent form). */
  function NatToText(n: nat): (s: string)
    ensures |s| > 0
    ensures forall i :: 0 <= i < |s| ==> IsDigit(s[i], 10)
    ensures DigitsValue(s, 10) == n
    ensures n > 0 ==> s[0] != '0'
    ensures n == 0 ==> s == "0"
  {
    if n < 10 then [DigitChar(n)]
    else
      var s := NatToText(n / 10) + [DigitChar(n % 10)];
      assert s[..|s| - 1] == NatToText(n / 10);
      s
  }

  /** The characters `parseInt` skips before the number: the white-space
      code points (tab, vertical tab, form feed, byte-order mark and the
      space separators) and the line terminators. */
  predicate IsWhiteSpace(c: char)
  {
    c == '\t' || c == '\U{000B}' || c == '\U{000C}' || c == '\U{FEFF}'
    || c == ' ' || c == '\U{00A0}' || c == '\U{1680}' || ('\U{2000}' <= c <= '\U{200A}')
    || c == '\U{202F}' || c == '\U{205F}' || c == '\U{3000}'
    || c == '\n' || c == '\r' || c == '\U{2028}' || c == '\U{2029}'
  }

  predicate AllWhiteSpace(s: string)
  {
    forall i :: 0 <= i < |s| ==> IsWhiteSpace(s[i])
  }

  predicate AllDigits(s: string, radix: nat)
  {
    forall i :: 0 <= i < |s| ==> IsDigit(s[i], radix)
  }

  predicate NoDecimalDigit(s: string)
  {
    forall i :: 0 <= i < |s| ==> !IsDigit(s[i], 10)
  }

  function TrimStart(s: string): (r: string)
    ensures |r| <= |s| && r == s[|s| - |r|..]
    ensures |r| > 0 ==> !IsWhiteSpace(r[0])
    ensures forall i :: 0 <= i < |s| - |r| ==> IsWhiteSpace(s[i])
  {
    if |s| > 0 && IsWhiteSpace(s[0]) then TrimStart(s[1..]) else s
  }

  /** Length of the longest prefix of `s` made of digits of `radix`. */
  function DigitPrefixLength(s: string, radix: nat): (n: nat)
    ensures n <= |s|
    ensures forall i :: 0 <= i < n ==> IsDigit(s[i], radix)
    ensures n < |s| ==> !IsDigit(s[n], radix)
  {
    if |s| > 0 && IsDigit(s[0], radix) then 1 + DigitPrefixLength(s[1..], radix) else 0
  }

  predicate HasHexPrefix(u: string)
  {
    |u| >= 2 && u[0] == '0' && (u[1] == 'x' || u[1] == 'X')
  }

  /** Without a `0x` prefix the magnitude is the leading decimal run. */
  lemma DecimalMagnitude(u: string)
    requires !HasHexPrefix(u)
    ensures var n := DigitPrefixLength(u, 10);
            ParseMagnitude(u) == if n == 0 then None else Some(DigitsValue(u[..n], 10))
  {
  }

  /** The unsigned part of `parseInt`: a `0x`/`0X` prefix selects base 16,
      then the longest run of digits is read; no digits is not-a-number. */
  function ParseMagnitude(u: string): (r: Option<nat>)
    ensures r.Some? ==> |u| > 0 && IsDigit(u[0], 10)
  {
    if HasHexPrefix(u) then ParseDigits(u[2..], 16) else ParseDigits(u, 10)
  }

  /** The longest run of `radix` digits at the start of `body`; none is
      not-a-number. */
  function ParseDigits(body: string, radix: nat): (r: Option<nat>)
    ensures r.None? <==> |body| == 0 || !IsDigit(body[0], radix)
  {
    var n := DigitPrefixLength(body, radix);
    if n == 0 then None else Some(DigitsValue(body[..n], radix))
  }

  /** The global `parseInt(s)` with no radix: skip leading white space, then
      read an optionally signed magnitude. */
  function ParseInt(s: string): (r: Option<int>)
  {
    ParseSigned(TrimStart(s))
  }

  /** One optional sign, then the magnitude. A negative zero is an ordinary
      zero here. */
  function ParseSigned(t: string): (r: Option<int>)
    ensures r.Some? ==> |t| > 0 && (IsDigit(t[0], 10) || (|t| > 1 && IsDigit(t[1], 10)))
  {
    if |t| > 0 && t[0] == '-' then
      match ParseMagnitude(t[1..])
      case None => None
      case Some(m) => Some(-(m as int))
    else if |t| > 0 && t[0] == '+' then
      match ParseMagnitude(t[1..])
      case None => None
      case Some(m) => Some(m)
    else
      match ParseMagnitude(t)
      case None => None
      case Some(m) => Some(m)
  }

  /** `parseInt` of text with no decimal digit at all is not-a-number. */
  lemma ParseIntWithoutDigitsIsNaN(s: string)
    requires NoDecimalDigit(s)
    ensures ParseInt(s) == None
  {
    var t := TrimStart(s);
    var k := |s| - |t|;
    if |t| > 0 {
      assert t[0] == s[k];
      if |t| > 1 {
        assert t[1] == s[k + 1];
      }
    }
  }

  /** A string of decimal digits is read back whole. */
  lemma {:induction false} DigitPrefixOfDigits(s: string)
    requires AllDigits(s, 10)
    ensures DigitPrefixLength(s, 10) == |s|
  {
    if |s| > 0 {
      DigitPrefixOfDigits(s[1..]);
    }
  }

  /** A decimal digit string is its own magnitude. */
  lemma MagnitudeOfDigits(s: string)
    requires |s| > 0 && AllDigits(s, 10)
    ensures ParseMagnitude(s) == Some(DigitsValue(s, 10))
  {
    DigitPrefixOfDigits(s);
    assert |s| >= 2 ==> !IsDigit('x', 10) && s[1] != 'x' && s[1] != 'X';
    assert s[..|s|] == s;
  }

  /** `parseInt` inverts `toString` on clock readings: the stored timestamp
      is read back as the same number. */
  lemma ParseIntOfNatToText(n: nat)
    ensures ParseInt(NatToText(n)) == Some(n)
  {
    var s := NatToText(n);
    assert IsDigit(s[0], 10);
    assert !IsWhiteSpace(s[0]);
    assert TrimStart(s) == s;
    MagnitudeOfDigits(s);
  }

  /** White space in front of a non-space character is all that `TrimStart` removes. */
  lemma {:induction false} TrimStartAfterWhiteSpace(w: string, u: string)
    requires AllWhiteSpace(w)
    requires |u| > 0 && !IsWhiteSpace(u[0])
    ensures TrimStart(w + u) == u
  {
    if |w| == 0 {
      assert w + u == u;
    } else {
      assert (w + u)[0] == w[0] && (w + u)[1..] == w[1..] + u;
      TrimStartAfterWhiteSpace(w[1..], u);
    }
  }

  /** The digit run of `d + t` is exactly `d` when `t` does not go on with a digit. */
  lemma {:induction false} DigitPrefixBeforeNonDigit(d: string, t: string, radix: nat)
    requires AllDigits(d, radix)
    requires |t| > 0 ==> !IsDigit(t[0], radix)
    ensures DigitPrefixLength(d + t, radix) == |d|
  {
    if |d| == 0 {
      assert d + t == t;
    } else {
      assert (d + t)[0] == d[0] && (d + t)[1..] == d[1..] + t;
      DigitPrefixBeforeNonDigit(d[1..], t, radix);
    }
  }

  /** A decimal run that is not the `0` of a `0x` prefix is read in base 10
      up to the first non-digit. */
  lemma MagnitudeOfLeadingDigits(d: string, t: string)
    requires |d| > 0 && AllDigits(d, 10)
    requires |t| > 0 ==> !IsDigit(t[0], 10)
    requires |d| == 1 && d[0] == '0' && |t| > 0 ==> t[0] != 'x' && t[0] != 'X'
    ensures ParseMagnitude(d + t) == Some(DigitsValue(d, 10))
  {
    var u := d + t;
    assert !HasHexPrefix(u) by {
      if |u| >= 2 {
        if |d| >= 2 {
          assert u[1] == d[1] && IsDigit(d[1], 10);
        } else {
          assert u[1] == t[0];
        }
      }
    }
    DecimalMagnitude(u);
    DigitPrefixBeforeNonDigit(d, t, 10);
    assert u[..|d|] == d;
  }

  lemma DropHead<T>(a: seq<T>, b: seq<T>)
    requires |a| == 1
    ensures (a + b)[0] == a[0] && (a + b)[1..] == b
  {
  }

  /** An optional sign in front of a magnitude that starts with a digit:
      the magnitude, negated after a minus. */
  lemma SignedMagnitude(sign: string, u: string, m: nat)
    requires sign == "" || sign == "-" || sign == "+"
    requires |u| > 0 && IsDigit(u[0], 10)
    requires ParseMagnitude(u) == Some(m)
    ensures ParseSigned(sign + u) == Some(if sign == "-" then -(m as int) else m)
  {
    if |sign| == 0 {
      assert sign + u == u;
    } else {
      DropHead(sign, u);
    }
  }

  /** `parseInt` is the signed reading of the text after its white space. */
  lemma ParseIntAfterTrim(s: string, u: string, r: Option<int>)
    requires TrimStart(s) == u && ParseSigned(u) == r
    ensures ParseInt(s) == r
  {
  }

  /** White space, an optional sign, then a magnitude that starts with a digit. */
  lemma ParseIntOfMagnitude(w: string, sign: string, m: string, v: nat)
    requires AllWhiteSpace(w)
    requires sign == "" || sign == "-" || sign == "+"
    requires |m| > 0 && IsDigit(m[0], 10) && ParseMagnitude(m) == Some(v)
    ensures ParseInt(w + (sign + m)) == Some(if sign == "-" then -(v as int) else v)
  {
    var u := sign + m;
    SignedMagnitude(sign, m, v);
    assert u[0] == if |sign| == 0 then m[0] else sign[0];
    TrimStartAfterWhiteSpace(w, u);
    ParseIntAfterTrim(w + u, u, Some(if sign == "-" then -(v as int) else v));
  }

  /** `parseInt` in general, for text that starts with a decimal number:
      after white space and at most one sign, the leading run of decimal
      digits `d`, whose value is `v`, is the result, negated after a minus. */
  lemma ParseIntReadsLeadingDecimal(w: string, sign: string, d: string, t: string, v: nat)
    requires AllWhiteSpace(w)
    requires sign == "" || sign == "-" || sign == "+"
    requires |d| > 0 && AllDigits(d, 10) && v == DigitsValue(d, 10)
    requires |t| > 0 ==> !IsDigit(t[0], 10)
    requires |d| == 1 && d[0] == '0' && |t| > 0 ==> t[0] != 'x' && t[0] != 'X'
    ensures ParseInt(w + (sign + (d + t))) == Some(if sign == "-" then -(v as int) else v)
  {
    MagnitudeOfLeadingDigits(d, t);
    assert (d + t)[0] == d[0];
    ParseIntOfMagnitude(w, sign, d + t, v);
  }

  /** Leading white space is skipped and reading stops at the first
      character that is not a digit. */
  lemma ParseIntSkipsSpaceAndStopsAtNonDigit()
    ensures ParseInt(" 42ms") == Some(42)
  {
    assert DigitsValue("42", 10) == 42 by {
      assert "42"[..1] == "4";
      assert DigitsValue("4", 10) == 4;
    }
    assert AllWhiteSpace(" ") && AllDigits("42", 10) && "ms"[0] == 'm';
    assert " " + ("" + ("42" + "ms")) == " 42ms";
    ParseIntReadsLeadingDecimal(" ", "", "42", "ms", 42);
  }

  /** After a `0x` or `0X` prefix the longest run of hexadecimal digits is
      read in base 16. */
  lemma MagnitudeOfHex(x: char, h: string, t: string, v: nat)
    requires x == 'x' || x == 'X'
    requires |h| > 0 && AllDigits(h, 16) && v == DigitsValue(h, 16)
    requires |t| > 0 ==> !IsDigit(t[0], 16)
    ensures ParseMagnitude(['0', x] + (h + t)) == Some(v)
  {
    var m := ['0', x] + (h + t);
    assert HasHexPrefix(m) && m[2..] == h + t;
    DigitPrefixBeforeNonDigit(h, t, 16);
    assert (h + t)[..|h|] == h;
  }

  /** A sign is honoured before a `0x` prefix, which switches to base 16:
      the hexadecimal run `h`, whose value is `v`, is the result, negated
      after a minus. */
  lemma ParseIntReadsSignedHex(w: string, sign: string, x: char, h: string, t: string, v: nat)
    requires AllWhiteSpace(w)
    requires sign == "" || sign == "-" || sign == "+"
    requires x == 'x' || x == 'X'
    requires |h| > 0 && AllDigits(h, 16) && v == DigitsValue(h, 16)
    requires |t| > 0 ==> !IsDigit(t[0], 16)
    ensures ParseInt(w + (sign + (['0', x] + (h + t)))) == Some(if sign == "-" then -(v as int) else v)
  {
    var m := ['0', x] + (h + t);
    MagnitudeOfHex(x, h, t, v);
    assert m[0] == '0';
    ParseIntOfMagnitude(w, sign, m, v);
  }

  /** A `0x` prefix with no digit after it is not-a-number. */
  lemma ParseIntOfBareHexPrefix()
    ensures ParseInt("0x") == None
  {
    assert ParseSigned("0x") == None by {
      assert HasHexPrefix("0x") && "0x"[2..] == "";
    }
    assert TrimStart("0x") == "0x";
    ParseIntAfterTrim("0x", "0x", None);
  }

  /** Text that starts with a letter is not-a-number, whatever follows. */
  lemma ParseIntOfLeadingLetter()
    ensures ParseInt("ms42") == None
  {
    assert ParseSigned("ms42") == None by {
      assert !HasHexPrefix("ms42") && !IsDigit("ms42"[0], 10);
    }
    assert TrimStart("ms42") == "ms42";
    ParseIntAfterTrim("ms42", "ms42", None);
  }
}

=== FILE: options.dfy ===
/** An optional value, for lookups that may find nothing and parses that may fail. */
module Options {

  datatype Option<+T> = None | Some(value: T)
}

=== FILE: quote_json.dfy ===
/** Quote records and the JSON text the loader keeps in local storage:
    `JSON.stringify` of a list of `{q, a}` records, and a `JSON.parse` that
    reads back the form the serializer writes. */
module QuoteJson {
  import opened Options
  import NumberText

  /** A quote record as the remote service returns it: text `q`, author `a`. */
  datatype Quote = Quote(q: string, a: string)

  /** Lower-case hexadecimal digit, as `JSON.stringify` writes in `\u` escapes. */
  function HexDigit(d: nat): (c: char)
    requires d < 16
    ensures NumberText.IsDigit(c, 16) && NumberText.DigitValue(c) == d
  {
    if d < 10 then '0' + d as char else 'a' + (d - 10) as char
  }

  /** The escape `JSON.stringify` writes for one character of a string. */
  function EscapeChar(c: char): (e: string)
    ensures |e| > 0
  {
    if c == '"' then "\\\""
    else if c == '\\' then "\\\\"
    else if c == '\U{0008}' then "\\b"
    else if c == '\t' then "\\t"
    else if c == '\n' then "\\n"
    else if c == '\U{000C}' then "\\f"
    else if c == '\r' then "\\r"
    else if c < ' ' then "\\u00" + [HexDigit(c as nat / 16), HexDigit(c as nat % 16)]
    else [c]
  }

  function Escape(s: string): string
  {
    if |s| == 0 then "" else EscapeChar(s[0]) + Escape(s[1..])
  }

  /** A string value: quoted and escaped. */
  function EncodeString(s: string): string
  {
    "\"" + Escape(s) + "\""
  }

  function EncodeQuote(x: Quote): string
  {
    "{\"q\":" + EncodeString(x.q) + ",\"a\":" + EncodeString(x.a) + "}"
  }

  function EncodeItems(qs: seq<Quote>): string
  {
    if |qs| == 0 then ""
    else if |qs| == 1 then EncodeQuote(qs[0])
    else EncodeQuote(qs[0]) + "," + EncodeItems(qs[1..])
  }

  /** `JSON.stringify(quotes)`. */
  function Encode(qs: seq<Quote>): (s: string)
    ensures |s| >= 2 && s[0] == '[' && s[|s| - 1] == ']'
    ensures s == "[]" <==> |qs| == 0
  {
    assert |qs| > 0 ==> |EncodeItems(qs)| > 0 by {
      if |qs| > 0 { assert EncodeQuote(qs[0])[0] == '{'; }
    }
    "[" + EncodeItems(qs) + "]"
  }

  /** `s` with the literal `lit` removed from its front, if it starts with it. */
  function Expect(lit: string, s: string): (r: Option<string>)
    ensures r.Some? <==> |lit| <= |s| && s[..|lit|] == lit
    ensures r.Some? ==> r.value == s[|lit|..]
  {
    if |lit| <= |s| && s[..|lit|] == lit then Some(s[|lit|..]) else None
  }

  /** The value of the four hexadecimal digits at the front of `s`. */
  function HexValue4(s: string): (r: Option<nat>)
    ensures r.Some? ==> |s| >= 4 && r.value < 0x1_0000
  {
    if |s| >= 4 && forall i :: 0 <= i < 4 ==> NumberText.IsDigit(s[i], 16) then
      Some(NumberText.DigitValue(s[0]) * 0x1000 + NumberText.DigitValue(s[1]) * 0x100
           + NumberText.DigitValue(s[2]) * 0x10 + NumberText.DigitValue(s[3]))
    else None
  }

  /** The character a `\`-escape denotes and how many characters it takes
      after the backslash. A `\u` escape naming a surrogate is refused. */
  function Unescape(s: string): (r: Option<(char, nat)>)
    ensures r.Some? ==> 0 < r.value.1 <= |s|
  {
    if |s| == 0 then None
    else if s[0] == '"' || s[0] == '\\' || s[0] == '/' then Some((s[0], 1))
    else if s[0] == 'b' then Some(('\U{0008}', 1))
    else if s[0] == 'f' then Some(('\U{000C}', 1))
    else if s[0] == 'n' then Some(('\n', 1))
    else if s[0] == 'r' then Some(('\r', 1))
    else if s[0] == 't' then Some(('\t', 1))
    else if s[0] == 'u' then
      match HexValue4(s[1..])
      case None => None
      case Some(v) => if 0xD800 <= v < 0xE000 then None else Some((v as char, 5))
    else None
  }

  function Prepend(c: char, r: Option<(string, string)>): Option<(string, string)>
  {
    match r
    case None => None
    case Some((t, rest)) => Some(([c] + t, rest))
  }

  /** The characters of a string value up to its closing quote, decoded,
      and the text after that quote. A raw control character is refused. */
  function ParseChars(s: string): (r: Option<(string, string)>)
    ensures r.Some? ==> |r.value.1| < |s|
    decreases |s|
  {
    if |s| == 0 then None
    else if s[0] == '"' then Some(("", s[1..]))
    else if s[0] == '\\' then
      match Unescape(s[1..])
      case None => None
      case Some((c, k)) => Prepend(c, ParseChars(s[1 + k..]))
    else if s[0] < ' ' then None
    else Prepend(s[0], ParseChars(s[1..]))
  }

  /** A quoted string value at the front of `s`, and the text after it. */
  function ParseString(s: string): (r: Option<(string, string)>)
    ensures r.Some? ==> |r.value.1| < |s|
  {
    match Expect("\"", s)
    case None => None
    case Some(body) => ParseChars(body)
  }

  /** One `{"q":…,"a":…}` record at the front of `s`, and the text after it. */
  function ParseQuote(s: string): (r: Option<(Quote, string)>)
    ensures r.Some? ==> |r.value.1| < |s|
  {
    match Expect("{\"q\":", s)
    case None => None
    case Some(s1) =>
      match ParseString(s1)
      case None => None
      case Some((q, s2)) =>
        match Expect(",\"a\":", s2)
        case None => None
        case Some(s3) =>
          match ParseString(s3)
          case None => None
          case Some((a, s4)) =>
            match Expect("}", s4)
            case None => None
            case Some(s5) => Some((Quote(q, a), s5))
  }

  /** One or more records separated by commas, up to and including the
      closing bracket; the text after the bracket. */
  function ParseItems(s: string): (r: Option<(seq<Quote>, string)>)
    ensures r.Some? ==> |r.value.0| > 0
    ensures r.Some? ==> |r.value.1| < |s|
    decreases |s|
  {
    match ParseQuote(s)
    case None => None
    case Some((x, s1)) =>
      if |s1| > 0 && s1[0] == ']' then Some(([x], s1[1..]))
      else if |s1| > 0 && s1[0] == ',' then
        match ParseItems(s1[1..])
        case None => None
        case Some((xs, rest)) => Some(([x] + xs, rest))
      else None
  }

  /** `JSON.parse` of a stored list: the whole text must be one list. */
  function Decode(s: string): (r: Option<seq<Quote>>)
    ensures r.Some? ==> |s| >= 2 && s[0] == '['
    ensures r == Some([]) <==> s == "[]"
  {
    match Expect("[", s)
    case None => None
    case Some(s1) =>
      if |s1| == 1 && s1[0] == ']' then Some([])
      else
        match ParseItems(s1)
        case None => None
        case Some((xs, rest)) => if rest == "" then Some(xs) else None
  }

  /** The characters `JSON.stringify` writes as a backslash and one letter. */
  predicate ShortEscaped(c: char)
  {
    c == '"' || c == '\\' || c == '\U{0008}' || c == '\t' || c == '\n' || c == '\U{000C}' || c == '\r'
  }

  lemma ParseShortEscape(c: char, rest: string)
    requires ShortEscaped(c)
    ensures ParseChars(EscapeChar(c) + rest) == Prepend(c, ParseChars(rest))
  {
    var s := EscapeChar(c) + rest;
    assert |EscapeChar(c)| == 2 && EscapeChar(c)[0] == '\\';
    assert s[0] == '\\' && s[2..] == rest;
    assert Unescape(s[1..]) == Some((c, 1)) by {
      assert s[1..][0] == EscapeChar(c)[1];
    }
  }

  lemma ParseUnicodeEscape(c: char, rest: string)
    requires c < ' ' && !ShortEscaped(c)
    ensures ParseChars(EscapeChar(c) + rest) == Prepend(c, ParseChars(rest))
  {
    var s := EscapeChar(c) + rest;
    var hi := c as nat / 16;
    var lo := c as nat % 16;
    assert EscapeChar(c) == ['\\', 'u', '0', '0', HexDigit(hi), HexDigit(lo)];
    assert s[1..][1..][..4] == ['0', '0', HexDigit(hi), HexDigit(lo)];
    assert HexValue4(s[1..][1..]) == Some(c as nat);
    assert Unescape(s[1..]) == Some((c, 5));
    assert s[6..] == rest;
  }

  lemma ParsePlainChar(c: char, rest: string)
    requires ' ' <= c && !ShortEscaped(c)
    ensures ParseChars(EscapeChar(c) + rest) == Prepend(c, ParseChars(rest))
  {
    var s := EscapeChar(c) + rest;
    assert EscapeChar(c) == [c];
    assert s[1..] == rest;
  }

  /** Reading one escaped character back yields the character itself. */
  lemma ParseEscapedChar(c: char, rest: string)
    ensures ParseChars(EscapeChar(c) + rest) == Prepend(c, ParseChars(rest))
  {
    if ShortEscaped(c) {
      ParseShortEscape(c, rest);
    } else if c < ' ' {
      ParseUnicodeEscape(c, rest);
    } else {
      ParsePlainChar(c, rest);
    }
  }

  /** Five pieces, regrouped so that the first two stand apart: the shape of
      a record, a comma and the remaining items before the closing bracket. */
  lemma Regroup<T>(a: seq<T>, b: seq<T>, c: seq<T>, d: seq<T>, e: seq<T>)
    ensures a + b + c + d + e == a + (b + (c + d + e))
  {
  }

  /** An escaped string followed by its closing quote reads back as the
      original string, leaving the text after the quote. */
  lemma {:induction false} ParseCharsOfEscape(t: string, rest: string)
    ensures ParseChars(Escape(t) + "\"" + rest) == Some((t, rest))
  {
    if |t| == 0 {
      assert Escape(t) + "\"" + rest == "\"" + rest;
    } else {
      var tail := Escape(t[1..]) + "\"" + rest;
      assert Escape(t) + "\"" + rest == EscapeChar(t[0]) + tail by {
        assert Escape(t) == EscapeChar(t[0]) + Escape(t[1..]);
      }
      ParseCharsOfEscape(t[1..], rest);
      ParseEscapedChar(t[0], tail);
      assert Prepend(t[0], Some((t[1..], rest))) == Some((t, rest)) by {
        assert [t[0]] + t[1..] == t;
      }
    }
  }

  lemma ParseStringOfEncode(t: string, rest: string)
    ensures ParseString(EncodeString(t) + rest) == Some((t, rest))
  {
    var s := EncodeString(t) + rest;
    assert s[..1] == "\"";
    assert s[1..] == Escape(t) + "\"" + rest;
    ParseCharsOfEscape(t, rest);
  }

  lemma ExpectPrefix(lit: string, rest: string)
    ensures Expect(lit, lit + rest) == Some(rest)
  {
    assert (lit + rest)[..|lit|] == lit && (lit + rest)[|lit|..] == rest;
  }

  /** Six pieces nested fully to the right: the shape of one record's five
      fields and separators followed by the rest of the text. */
  lemma Nest<T>(a: seq<T>, b: seq<T>, c: seq<T>, d: seq<T>, e: seq<T>, f: seq<T>)
    ensures a + b + c + d + e + f == a + (b + (c + (d + (e + f))))
  {
  }

  /** `ParseQuote` in terms of its five steps. */
  lemma ParseQuoteSteps(s: string, s1: string, q: string, s2: string, s3: string, a: string,
                        s4: string, s5: string)
    requires Expect("{\"q\":", s) == Some(s1)
    requires ParseString(s1) == Some((q, s2))
    requires Expect(",\"a\":", s2) == Some(s3)
    requires ParseString(s3) == Some((a, s4))
    requires Expect("}", s4) == Some(s5)
    ensures ParseQuote(s) == Some((Quote(q, a), s5))
  {
  }

  /** One encoded record reads back as itself, leaving the text after it. */
  lemma ParseQuoteOfEncode(x: Quote, rest: string)
    ensures ParseQuote(EncodeQuote(x) + rest) == Some((x, rest))
  {
    var s4 := "}" + rest;
    var s3 := EncodeString(x.a) + s4;
    var s2 := ",\"a\":" + s3;
    var s1 := EncodeString(x.q) + s2;
    var s := EncodeQuote(x) + rest;
    assert s == "{\"q\":" + s1 by {
      Nest("{\"q\":", EncodeString(x.q), ",\"a\":", EncodeString(x.a), "}", rest);
    }
    ExpectPrefix("{\"q\":", s1);
    ParseStringOfEncode(x.q, s2);
    ExpectPrefix(",\"a\":", s3);
    ParseStringOfEncode(x.a, s4);
    ExpectPrefix("}", rest);
    ParseQuoteSteps(s, s1, x.q, s2, s3, x.a, s4, rest);
  }

  /** After one record, a closing bracket ends the list. */
  lemma ParseLastItem(x: Quote, rest: string)
    ensures ParseItems(EncodeQuote(x) + ("]" + rest)) == Some(([x], rest))
  {
    ParseQuoteOfEncode(x, "]" + rest);
    assert ("]" + rest)[1..] == rest;
  }

  /** After one record, a comma continues the list with what follows. */
  lemma ParseMoreItems(x: Quote, more: string)
    ensures ParseItems(EncodeQuote(x) + ("," + more)) ==
            match ParseItems(more)
            case None => None
            case Some((xs, rest)) => Some(([x] + xs, rest))
  {
    ParseQuoteOfEncode(x, "," + more);
    assert ("," + more)[1..] == more;
  }

  lemma {:induction false} ParseItemsOfEncode(qs: seq<Quote>, rest: string)
    requires |qs| > 0
    ensures ParseItems(EncodeItems(qs) + "]" + rest) == Some((qs, rest))
  {
    var head := EncodeQuote(qs[0]);
    if |qs| == 1 {
      assert EncodeItems(qs) + "]" + rest == head + ("]" + rest);
      ParseLastItem(qs[0], rest);
      assert [qs[0]] == qs;
    } else {
      var more := EncodeItems(qs[1..]) + "]" + rest;
      assert EncodeItems(qs) + "]" + rest == head + ("," + more) by {
        assert EncodeItems(qs) == head + "," + EncodeItems(qs[1..]);
        Regroup(head, ",", EncodeItems(qs[1..]), "]", rest);
      }
      ParseItemsOfEncode(qs[1..], rest);
      ParseMoreItems(qs[0], more);
      assert [qs[0]] + qs[1..] == qs;
    }
  }

  /** `JSON.parse` inverts `JSON.stringify` on quote lists: what the loader
      stores is read back as the same list. */
  lemma DecodeOfEncode(qs: seq<Quote>)
    ensures Decode(Encode(qs)) == Some(qs)
  {
    var body := EncodeItems(qs) + "]";
    assert Expect("[", Encode(qs)) == Some(body) by {
      assert Encode(qs) == "[" + body;
      ExpectPrefix("[", body);
    }
    if |qs| == 0 {
      assert body == "]";
    } else {
      assert |body| > 1 by {
        assert EncodeQuote(qs[0])[0] == '{';
      }
      assert ParseItems(body) == Some((qs, "")) by {
        assert body == EncodeItems(qs) + "]" + "";
        ParseItemsOfEncode(qs, "");
      }
    }
  }
}

=== FILE: quote_loader.dfy ===
/** The quotes loader: a list of quotes cached in local storage for one
    hour, refreshed from the remote service when stale or absent, with a
    built-in fallback quote when the service fails, and a random quote
    rendered into the page. The network response, the storage contents,
    the clock and the random draw are all inputs. */
module QuoteLoader {
  import opened Options
  import opened QuoteJson
  import NumberText

  /** Storage key of the serialized quote list. */
  const CacheKey: string := "zenquotes_cache"
  /** Storage key of the fetch time, in milliseconds, as decimal text. */
  const TimestampKey: string := "zenquotes_timestamp"
  /** How long a cached list stays usable: one hour in milliseconds. */
  const CacheDuration: int := 3600000

  /** The quote served when the remote service cannot be used. */
  const FallbackQuote: Quote := Quote("The only way to do great work is to love what you do.", "Steve Jobs")

  /** Local storage: absent keys read as null. */
  type Storage = map<string, string>

  /** What the single network request produced: the request itself failed,
      or a response arrived with its `ok` flag and its body read as a quote
      list (`None` when reading the body as JSON failed). */
  datatype FetchOutcome = NetworkError | Response(ok: bool, body: Option<seq<Quote>>)

  /** Only an ok response whose body could be read counts as a success;
      every other outcome ends in the fallback. */
  predicate Succeeded(outcome: FetchOutcome)
  {
    outcome.Response? && outcome.ok && outcome.body.Some?
  }

  /** A stored entry is truthy: present and not the empty string. */
  predicate Present(storage: Storage, key: string)
  {
    key in storage && storage[key] != ""
  }

  /** The cache may be used: both entries are present and the stored time,
      read with `parseInt`, is less than one hour before `now`. A stored time
      that reads as not-a-number fails the comparison. */
  predicate CacheFresh(storage: Storage, now: int)
  {
    && Present(storage, CacheKey)
    && Present(storage, TimestampKey)
    && match NumberText.ParseInt(storage[TimestampKey])
       case None => false
       case Some(stamp) => now - stamp < CacheDuration
  }

  /** What a fetch hands back: the quote list and the storage afterwards. */
  datatype Fetched = Fetched(quotes: seq<Quote>, storage: Storage)

  /** `fetchQuotes`: on success, overwrite both storage entries wholesale
      (the serialized list, and `clock` as text) and return the list; on any
      failure, return the one-quote fallback and leave storage untouched. */
  function FetchQuotes(outcome: FetchOutcome, storage: Storage, clock: nat): (r: Fetched)
    ensures Succeeded(outcome) ==> r.quotes == outcome.body.value
    ensures Succeeded(outcome) ==> r.storage.Keys == storage.Keys + {CacheKey, TimestampKey}
    ensures Succeeded(outcome) ==> Decode(r.storage[CacheKey]) == Some(r.quotes)
    ensures Succeeded(outcome) ==> NumberText.ParseInt(r.storage[TimestampKey]) == Some(clock)
    ensures Succeeded(outcome) ==>
              forall k :: k in storage && k != CacheKey && k != TimestampKey ==> r.storage[k] == storage[k]
    ensures !Succeeded(outcome) ==> r.quotes == [FallbackQuote] && r.storage == storage
  {
    if Succeeded(outcome) then
      var data := outcome.body.value;
      DecodeOfEncode(data);
      NumberText.ParseIntOfNatToText(clock);
      Fetched(data, storage[CacheKey := Encode(data)][TimestampKey := NumberText.NatToText(clock)])
    else
      Fetched([FallbackQuote], storage)
  }

  /** How `loadQuotes` ends: with a quote list, the storage afterwards and
      whether the network was used; or with the cached text failing to
      parse, which rejects the load before anything is shown. */
  datatype LoadResult = Loaded(quotes: seq<Quote>, storage: Storage, fetched: bool) | ParseFailure

  /** `loadQuotes`: use the cache when it is fresh, otherwise fetch.
      `now` is the clock when the load starts, `clock` the clock when the
      fetch completes and stamps the cache. */
  function LoadQuotes(storage: Storage, now: int, outcome: FetchOutcome, clock: nat): (r: LoadResult)
    ensures r.Loaded? && r.fetched <==> !CacheFresh(storage, now)
    ensures r.ParseFailure? <==> CacheFresh(storage, now) && Decode(storage[CacheKey]).None?
    ensures r.Loaded? && !r.fetched ==>
              r.storage == storage && Some(r.quotes) == Decode(storage[CacheKey])
    ensures r.Loaded? && r.fetched ==>
              r.quotes == FetchQuotes(outcome, storage, clock).quotes
              && r.storage == FetchQuotes(outcome, storage, clock).storage
  {
    if CacheFresh(storage, now) then
      match Decode(storage[CacheKey])
      case None => ParseFailure
      case Some(cached) => Loaded(cached, storage, false)
    else
      var f := FetchQuotes(outcome, storage, clock);
      Loaded(f.quotes, f.storage, true)
  }

  /** The author line's prefix: an em dash whose UTF-8 bytes were read as
      Windows-1252, then a space. */
  const AuthorPrefix: string := "\U{00E2}\U{20AC}\U{201D} "

  /** The two display slots' text after a quote is shown. */
  datatype Rendered = Rendered(text: string, author: string)

  function Render(x: Quote): Rendered
  {
    Rendered("\"" + x.q + "\"", AuthorPrefix + x.a)
  }

  /** `Math.floor(draw * n)`: the index a draw in [0, 1) selects among `n`
      entries. Index `i` is selected exactly by the draws in [i/n, (i+1)/n). */
  function PickIndex(draw: real, n: nat): (i: nat)
    requires 0.0 <= draw < 1.0
    requires n > 0
    ensures i < n
    ensures (i as real) <= draw * (n as real) < (i + 1) as real
  {
    ScaledDrawInRange(draw, n as real);
    FloorBelow(draw * n as real, n)
  }

  /** `Math.floor(x)` for `x` in [0, n): an index below `n`. */
  function FloorBelow(x: real, n: nat): (i: nat)
    requires 0.0 <= x < n as real
    ensures i < n
    ensures (i as real) <= x < (i + 1) as real
  {
    x.Floor
  }

  lemma ScaledDrawInRange(draw: real, n: real)
    requires 0.0 <= draw < 1.0
    requires n > 0.0
    ensures 0.0 <= draw * n < n
  {
    assert n - draw * n == (1.0 - draw) * n;
  }

  /** Every entry can be selected: the draw i/n selects index i. */
  lemma EveryIndexSelectable(i: nat, n: nat)
    requires i < n
    ensures 0.0 <= (i as real) / (n as real) < 1.0
    ensures PickIndex((i as real) / (n as real), n) == i
  {
    var draw := (i as real) / (n as real);
    assert draw * (n as real) == i as real;
    assert draw < 1.0 by {
      assert (1.0 - draw) * (n as real) == (n as real) - (i as real);
    }
  }

  /** `displayRandomQuote`: nothing happens for an empty list; otherwise the
      draw picks an entry, which is rendered when both display slots exist. */
  function DisplayRandomQuote(quotes: seq<Quote>, draw: real, slotsPresent: bool): (r: Option<Rendered>)
    requires 0.0 <= draw < 1.0
    ensures r.Some? <==> |quotes| > 0 && slotsPresent
    ensures r.Some? ==> exists i :: 0 <= i < |quotes| && r.value == Render(quotes[i])
    ensures r.Some? ==> r.value == Render(quotes[PickIndex(draw, |quotes|)])
  {
    if |quotes| == 0 then None
    else
      var i := PickIndex(draw, |quotes|);
      if slotsPresent then Some(Render(quotes[i])) else None
  }

  /** The page after the load triggered by `DOMContentLoaded`: the in-memory
      quote list, the storage, and what the display slots show. */
  datatype Page = Page(memory: seq<Quote>, storage: Storage, shown: Option<Rendered>)

  /** Load, then display. A rejected load leaves memory and storage as they
      were and shows nothing. */
  function OnContentLoaded(memory: seq<Quote>, storage: Storage, now: int, outcome: FetchOutcome,
                           clock: nat, draw: real, slotsPresent: bool): (p: Page)
    requires 0.0 <= draw < 1.0
    ensures p.shown.Some? ==> exists i :: 0 <= i < |p.memory| && p.shown.value == Render(p.memory[i])
    ensures !CacheFresh(storage, now) && !Succeeded(outcome) ==> p.memory == [FallbackQuote] && p.storage == storage
  {
    match LoadQuotes(storage, now, outcome, clock)
    case ParseFailure => Page(memory, storage, None)
    case Loaded(quotes, storage', _) => Page(quotes, storage', DisplayRandomQuote(quotes, draw, slotsPresent))
  }

  /** A successful fetch followed, within the hour, by another load: the
      second load uses the cache and gets exactly the fetched list back,
      whatever the network would have done. */
  lemma FetchThenLoadWithinHour(storage: Storage, data: seq<Quote>, stamp: nat, now: int,
                                outcome: FetchOutcome, clock: nat)
    requires now - stamp < CacheDuration
    ensures var after := FetchQuotes(Response(true, Some(data)), storage, stamp).storage;
            LoadQuotes(after, now, outcome, clock) == Loaded(data, after, false)
  {
    var after := FetchQuotes(Response(true, Some(data)), storage, stamp).storage;
    assert Present(after, CacheKey);
    assert Present(after, TimestampKey) by {
      NumberText.ParseIntOfNatToText(stamp);
    }
    assert CacheFresh(after, now);
  }

  /** Storage holding just the serialized list `qs` stamped at `stamp`. */
  function StoredList(qs: seq<Quote>, stamp: nat): Storage
  {
    map[CacheKey := Encode(qs), TimestampKey := NumberText.NatToText(stamp)]
  }

  /** A load less than an hour after the stored time serves the stored
      list, with no fetch. */
  lemma LoadWithinHourUsesCache(qs: seq<Quote>, stamp: nat, now: int, outcome: FetchOutcome, clock: nat)
    requires now - stamp < CacheDuration
    ensures LoadQuotes(StoredList(qs, stamp), now, outcome, clock) == Loaded(qs, StoredList(qs, stamp), false)
  {
    NumberText.ParseIntOfNatToText(stamp);
    DecodeOfEncode(qs);
    assert CacheFresh(StoredList(qs, stamp), now);
  }

  /** A load an hour or more after the stored time fetches. */
  lemma LoadAfterHourFetches(storage: Storage, stamp: nat, now: int, outcome: FetchOutcome, clock: nat)
    requires TimestampKey in storage && storage[TimestampKey] == NumberText.NatToText(stamp)
    requires now - stamp >= CacheDuration
    ensures LoadQuotes(storage, now, outcome, clock).Loaded?
    ensures LoadQuotes(storage, now, outcome, clock).fetched
  {
    NumberText.ParseIntOfNatToText(stamp);
  }

  /** With the list stored at time T: a load at T + 59 minutes uses the
      cache, and a load at T + 61 minutes fetches. */
  lemma CacheExpiresBetween59And61Minutes(qs: seq<Quote>, stamp: nat, outcome: FetchOutcome, clock: nat)
    ensures LoadQuotes(StoredList(qs, stamp), stamp + 59 * 60000, outcome, clock)
              == Loaded(qs, StoredList(qs, stamp), false)
    ensures LoadQuotes(StoredList(qs, stamp), stamp + 61 * 60000, outcome, clock).fetched
  {
    LoadWithinHourUsesCache(qs, stamp, stamp + 59 * 60000, outcome, clock);
    LoadAfterHourFetches(StoredList(qs, stamp), stamp, stamp + 61 * 60000, outcome, clock);
  }

  /** Two successful fetches in a row leave exactly what the second one
      alone would have left: nothing of the first list is merged in. */
  lemma SecondFetchReplacesFirst(storage: Storage, first: seq<Quote>, second: seq<Quote>,
                                 t1: nat, t2: nat)
    ensures var once := FetchQuotes(Response(true, Some(first)), storage, t1).storage;
            FetchQuotes(Response(true, Some(second)), once, t2)
              == FetchQuotes(Response(true, Some(second)), storage, t2)
  {
    var once := storage[CacheKey := Encode(first)][TimestampKey := NumberText.NatToText(t1)];
    var e2, s2 := Encode(second), NumberText.NatToText(t2);
    assert once[CacheKey := e2][TimestampKey := s2] == storage[CacheKey := e2][TimestampKey := s2] by {
      OverwriteBothEntries(storage, Encode(first), NumberText.NatToText(t1), e2, s2);
    }
  }

  /** Writing both entries twice is writing them once with the later values. */
  lemma OverwriteBothEntries(storage: Storage, e1: string, s1: string, e2: string, s2: string)
    ensures storage[CacheKey := e1][TimestampKey := s1][CacheKey := e2][TimestampKey := s2]
              == storage[CacheKey := e2][TimestampKey := s2]
  {
  }

  /** When the cache is unusable and the fetch fails, the page shows exactly
      the fallback quote, whatever the draw, and storage is untouched. */
  lemma FailedFetchShowsFallback(memory: seq<Quote>, storage: Storage, now: int, outcome: FetchOutcome,
                                 clock: nat, draw: real)
    requires 0.0 <= draw < 1.0
    requires !CacheFresh(storage, now)
    requires !Succeeded(outcome)
    ensures var p := OnContentLoaded(memory, storage, now, outcome, clock, draw, true);
            p.storage == storage && p.shown == Some(Render(FallbackQuote))
  {
    assert PickIndex(draw, 1) == 0;
  }

  /** A one-quote cache written ten minutes ago is shown as `"A"` by `X`,
      with no network request. */
  lemma FreshCacheShownWithoutFetch(stamp: nat, outcome: FetchOutcome, clock: nat, draw: real)
    requires 0.0 <= draw < 1.0
    ensures var storage := StoredList([Quote("A", "X")], stamp);
            && LoadQuotes(storage, stamp + 10 * 60000, outcome, clock) == Loaded([Quote("A", "X")], storage, false)
            && OnContentLoaded([], storage, stamp + 10 * 60000, outcome, clock, draw, true).shown
                 == Some(Rendered("\"A\"", AuthorPrefix + "X"))
  {
    var qs := [Quote("A", "X")];
    CachedListShown(qs, stamp, stamp + 10 * 60000, outcome, clock, draw);
    assert DisplayRandomQuote(qs, draw, true) == Some(Rendered("\"A\"", AuthorPrefix + "X")) by {
      assert PickIndex(draw, 1) == 0;
      assert Render(qs[0]) == Rendered("\"A\"", AuthorPrefix + "X");
    }
  }

  /** A list cached less than an hour before the load is what the page draws from. */
  lemma CachedListShown(qs: seq<Quote>, stamp: nat, now: int, outcome: FetchOutcome, clock: nat, draw: real)
    requires now - stamp < CacheDuration
    requires 0.0 <= draw < 1.0
    ensures LoadQuotes(StoredList(qs, stamp), now, outcome, clock) == Loaded(qs, StoredList(qs, stamp), false)
    ensures OnContentLoaded([], StoredList(qs, stamp), now, outcome, clock, draw, true).shown
              == DisplayRandomQuote(qs, draw, true)
  {
    var storage := StoredList(qs, stamp);
    LoadWithinHourUsesCache(qs, stamp, now, outcome, clock);
    PageOfLoaded([], storage, now, outcome, clock, draw, true, qs, storage, false);
  }

  /** A load that yields a list shows a quote drawn from that list. */
  lemma PageOfLoaded(memory: seq<Quote>, storage: Storage, now: int, outcome: FetchOutcome, clock: nat,
                     draw: real, slotsPresent: bool, qs: seq<Quote>, storage': Storage, fetched: bool)
    requires 0.0 <= draw < 1.0
    requires LoadQuotes(storage, now, outcome, clock) == Loaded(qs, storage', fetched)
    ensures OnContentLoaded(memory, storage, now, outcome, clock, draw, slotsPresent)
              == Page(qs, storage', DisplayRandomQuote(qs, draw, slotsPresent))
  {
  }

  /** With no cache, a successful fetch of one quote leaves exactly that
      list and the fetch time in storage. */
  lemma EmptyCacheFilledByFetch(now: int, clock: nat)
    ensures var r := LoadQuotes(map[], now, Response(true, Some([Quote("B", "Y")])), clock);
            && r.Loaded? && r.fetched && r.quotes == [Quote("B", "Y")]
            && r.storage.Keys == {CacheKey, TimestampKey}
            && Decode(r.storage[CacheKey]) == Some([Quote("B", "Y")])
            && NumberText.ParseInt(r.storage[TimestampKey]) == Some(clock)
  {
    var outcome := Response(true, Some([Quote("B", "Y")]));
    assert !CacheFresh(map[], now);
    var f := FetchQuotes(outcome, map[], clock);
    assert LoadQuotes(map[], now, outcome, clock) == Loaded(f.quotes, f.storage, true);
    assert f.storage.Keys == {CacheKey, TimestampKey};
  }
}

=== FILE: typewriter.dfy ===
/** The hero-title typing effect: the title is cleared, then each timer
    tick appends the next character of the original text and schedules the
    next tick, until the text is exhausted. */
module Typewriter {

  /** The title's displayed text and the index of the next character. */
  datatype Typing = Typing(shown: string, index: nat)

  /** Result of one tick: the new state, and whether another tick was scheduled. */
  datatype Tick = Tick(state: Typing, reschedules: bool)

  /** The state right after the title is cleared. */
  const Cleared: Typing := Typing("", 0)

  /** The state stays a prefix of the text, positioned at its own end. */
  predicate ShowsPrefix(text: string, t: Typing)
  {
    t.index <= |text| && t.shown == text[..t.index]
  }

  /** One tick: while characters remain, append the next one, advance and
      schedule the next tick; otherwise do nothing and schedule nothing. */
  function Step(text: string, t: Typing): (r: Tick)
    ensures r.reschedules <==> t.index < |text|
    ensures ShowsPrefix(text, t) ==> ShowsPrefix(text, r.state)
    ensures r.reschedules ==> r.state.index == t.index + 1
    ensures !r.reschedules ==> r.state == t
  {
    if t.index < |text| then
      var next := Typing(t.shown + [text[t.index]], t.index + 1);
      assert ShowsPrefix(text, t) ==> text[..t.index] + [text[t.index]] == text[..t.index + 1];
      Tick(next, true)
    else
      Tick(t, false)
  }

  /** The state after `k` ticks from the cleared title. */
  function Run(text: string, k: nat): Typing
  {
    if k == 0 then Cleared else Step(text, Run(text, k - 1)).state
  }

  /** After `k` ticks the title shows the first `min(k, |text|)` characters
      of the text. */
  lemma {:induction false} RunShowsPrefix(text: string, k: nat)
    ensures ShowsPrefix(text, Run(text, k))
    ensures Run(text, k).index == if k <= |text| then k else |text|
  {
    if k > 0 {
      RunShowsPrefix(text, k - 1);
    }
  }

  /** Every tick up to the `|text|`-th schedules another; the tick after the
      whole text is shown schedules nothing, so typing stops. */
  lemma RunStopsAtEnd(text: string, k: nat)
    ensures k < |text| ==> Step(text, Run(text, k)).reschedules
    ensures Run(text, |text|).shown == text
    ensures !Step(text, Run(text, |text|)).reschedules
  {
    RunShowsPrefix(text, k);
    RunShowsPrefix(text, |text|);
  }
}

=== FILE: window.dfy ===
/** Sliding windows over sequences: the `Array.prototype.slice(-n)` idiom
    that the key-sequence buffer and the cursor trail rely on. */
module Window {

  function Min(a: int, b: int): int
  {
    if a <= b then a else b
  }

  /** Where `slice(-n)` starts on a sequence of length `len`: `max(len - n, 0)`. */
  function WindowStart(len: nat, n: nat): (start: nat)
    ensures start <= len
    ensures len - start == Min(len, n)
  {
    if len >= n then len - n else 0
  }

  /** The last `min(|s|, n)` elements of `s`, in order: `s.slice(-n)` for
      `n > 0` (for `n == 0`, `slice(-0)` would be the whole of `s`). */
  function Last<T>(s: seq<T>, n: nat): (r: seq<T>)
    ensures |r| == Min(|s|, n)
    ensures forall i :: 0 <= i < |r| ==> r[i] == s[|s| - |r| + i]
  {
    s[WindowStart(|s|, n)..]
  }

  /** On a sequence at least `n` long the window is the plain suffix of length `n`. */
  lemma LastIsSuffix<T>(s: seq<T>, n: nat)
    requires n <= |s|
    ensures Last(s, n) == s[|s| - n..]
  {
  }

  /** One append to a window of `n` keeps the last `n - 1` old elements
      followed by the new one. */
  lemma LastOfSnoc<T>(s: seq<T>, x: T, n: nat)
    requires n > 0
    ensures Last(s + [x], n) == Last(s, n - 1) + [x]
  {
    var start := WindowStart(|s| + 1, n);
    assert start == WindowStart(|s|, n - 1);
    assert (s + [x])[start..] == s[start..] + [x];
  }

  /** A narrower window of a window is the narrower window of the whole. */
  lemma LastOfLast<T>(s: seq<T>, n: nat, m: nat)
    requires m <= n
    ensures Last(Last(s, n), m) == Last(s, m)
  {
    var a := WindowStart(|s|, n);
    var w := s[a..];
    assert Last(s, n) == w;
    var b := WindowStart(|w|, m);
    assert Last(w, m) == w[b..];
    assert a + b == WindowStart(|s|, m);
    assert w[b..] == s[a + b..];
  }

  /** Taking the last `n` elements after every append gives the same window
      as taking them once at the end: trimming early never loses an element
      the final window needs. */
  lemma LastOfAppend<T>(s: seq<T>, x: T, n: nat)
    requires n > 0
    ensures Last(Last(s, n) + [x], n) == Last(s + [x], n)
  {
    LastOfSnoc(Last(s, n), x, n);
    LastOfLast(s, n, n - 1);
    LastOfSnoc(s, x, n);
  }

  /** A non-empty sequence is its front followed by its last element. */
  lemma SplitLast<T>(s: seq<T>)
    requires |s| > 0
    ensures s[..|s| - 1] + [s[|s| - 1]] == s
  {
  }
}
